=== FILE: README.md ===
# Coffee drip timer: brew-timing model

A Dafny model of the brew-timing logic of the CoffeeDripTimer Android app. The user enters
an amount of beans (grams, as text) and picks a roast. The app builds a pour plan from a
static table. Each step pours to a cumulative water target and then waits a fixed time. On
Start it shows the first pour at once and sets one alarm per later step. While the brew
runs, a one-second ticker samples the clock, and the display shows the time left in every
wait. When the last wait is over, the display ends the brew.

Modules, leaves first:

- `Wrappers` (`wrappers.dfy`): `Option` for Kotlin's nullable values and `Result` for a call that throws.
- `BrewTable` (`brew_table.dfy`): roasts, the two step kinds `Short = (5.0, 2)` and `Long = (7.5, 3)`, the step list of each roast, and the 60000 ms wait unit.
- `Amount` (`amount.dfy`): the amount field's input filter `\d*([.]\d*)?` and the parse of the amount text.
- `Plan` (`plan.dfy`): the cumulative targets of a step list and the instants at which the waits begin.
- `Alarms` (`alarms.dfy`): the alarm facility as the screen uses it. This is a map from request code to (instant, message).
- `Notifications` (`notifications.dfy`): the scheduling loop run on Start and the key-range cancellation run on Cancel.
- `Display` (`display.dfy`): the arithmetic of the step display. That is the remaining time of each wait, the completion test, and the minute/second rounding. Its loop is proved equal to the pure definitions.
- `Screen` (`screen.dfy`): the screen as a state machine over inputs, Start, Cancel, ticker callbacks and recompositions.

Amounts are `real` and instants are `int` milliseconds. The source's two loops each walk the
step list. `Plan.Targets` defines the walk once, and both `Notifications.ScheduleNotifications`
and `Display.BrewStepsDisplay` are proved to produce it.

Behaviour the code does not have, and so the model does not have either:

- There is no roast-specific amount adjustment. Medium roast with 20 g pours to 100, 250 and 400.
- There is no highlight window after the last pour.
- Alarms whose instant has already passed are not filtered out.
- There is no rescheduling after a change in the middle of a brew. The amount and roast inputs are disabled while a brew runs (`Screen.InputsFrozenWhileRunning`).
- The lone text `"."` is not treated as 0.

Behaviour the code does have, which a reader might not expect:

- The display rounds half-up at 500 ms. 1 ms left therefore shows `0:00`, and 500 ms is the first value shown as `0:01`.
- The lone text `"."` passes the input filter, and `toDouble()` then throws (see Findings).

### Where the call sites and the notifier file differ

The screen imports `scheduleTimerNotification` and `cancelTimerNotification` from the notifier package. The notifier file `notifier/ScheduleTImerNotification.kt` defines `ScheduleTimerNotification` and `CancelTimerNotification`, with a capital first letter. Its cancel function takes no key range. The model assumes the screen's `scheduleTimerNotification(context, notifyAt, i, message)` is the notifier file's `ScheduleTimerNotification` with the same four arguments, and `Alarms.Request` rests on that assumption.

- The screen calls `cancelTimerNotification(context, 1, nSteps - 1)`. The notifier file defines `CancelTimerNotification(context)`, which cancels every alarm. The model follows the call site and cancels keys `1..n-1` (`Notifications.CancelNotifications`). `Notifications.CancelNotificationsIsCancelAll` proves the two agree whenever the facility holds only this brew's step alarms.
- Scheduling creates the pending intent with `FLAG_CANCEL_CURRENT` before calling the alarm manager. So when the call then fails with a swallowed `SecurityException`, the key's earlier alarm has already been invalidated. `Alarms.Request` therefore leaves a refused key with no alarm, rather than with its old one.

## Model

| member | source | states |
|---|---|---|
| `BrewTable.TableContents` | app/src/main/java/com/edamametech/android/coffeedriptimer/ui/CoffeeDripTimerScreen.kt:48-68 | The table as written: `Short` pours 5.0 per gram and waits 120000 ms, `Long` pours 7.5 and waits 180000 ms; Medium is Short, Long, Long and Dark is four Shorts; every roast has at least three steps |
| `BrewTable.StepKindsArePositive` | app/src/main/java/com/edamametech/android/coffeedriptimer/ui/CoffeeDripTimerScreen.kt:51-54 | Every step kind pours at least 5.0 per gram and waits at least one 60000 ms unit |
| `Amount.MatchesIsAmountPattern` | app/src/main/java/com/edamametech/android/coffeedriptimer/ui/CoffeeDripTimerScreen.kt:78 | The digit-run scanner accepts a text if and only if the whole text matches `\d*([.]\d*)?` (an existential split into digits, optional dot, digits) |
| `Amount.Update` | app/src/main/java/com/edamametech/android/coffeedriptimer/ui/CoffeeDripTimerScreen.kt:77-81 | The amount becomes the new text exactly when the text matches the input pattern; otherwise the old amount is kept |
| `Amount.ParseBeans` | app/src/main/java/com/edamametech/android/coffeedriptimer/ui/CoffeeDripTimerScreen.kt:112-116 | The empty text is amount 0 and every parsed amount is non-negative |
| `Amount.ParseFailsOnlyOnDot` | app/src/main/java/com/edamametech/android/coffeedriptimer/ui/CoffeeDripTimerScreen.kt:112-116 | A text in the input pattern fails to parse if and only if it is the lone dot |
| `Amount.ParseDecimalText` | app/src/main/java/com/edamametech/android/coffeedriptimer/ui/CoffeeDripTimerScreen.kt:112-116 | Parsing inverts decimal spelling: the text of any whole number parses to that number |
| `Amount.ParseFraction` | app/src/main/java/com/edamametech/android/coffeedriptimer/ui/CoffeeDripTimerScreen.kt:112-116 | A digit run, a dot and a digit run, not both empty, parses to all its digits read as one number over ten to the power of the number of digits after the dot |
| `Amount.ParseWithDot` | app/src/main/java/com/edamametech/android/coffeedriptimer/ui/CoffeeDripTimerScreen.kt:112-116 | A text made of a digit run, a dot and a digit run, other than the lone dot, parses to the decimal whose whole part is the digits before the dot and whose fraction is the digits after it |
| `Amount.DigitsValueAppend` | app/src/main/java/com/edamametech/android/coffeedriptimer/ui/CoffeeDripTimerScreen.kt:112-116 | Appending a digit run multiplies the value of the leading digits by ten per appended digit and adds the appended run's value |
| `Amount.ParseOneAndAHalf` | app/src/main/java/com/edamametech/android/coffeedriptimer/ui/CoffeeDripTimerScreen.kt:112-116 | "1.5" parses to 1.5 |
| `Amount.ParseHalf` | app/src/main/java/com/edamametech/android/coffeedriptimer/ui/CoffeeDripTimerScreen.kt:112-116 | ".5", with an empty whole part, parses to 0.5 |
| `Amount.ParseTwoPointZeroFive` | app/src/main/java/com/edamametech/android/coffeedriptimer/ui/CoffeeDripTimerScreen.kt:112-116 | "2.05" parses to 2.05: a leading zero of the fraction keeps its place |
| `Amount.ParseTrailingDot` | app/src/main/java/com/edamametech/android/coffeedriptimer/ui/CoffeeDripTimerScreen.kt:112-116 | A digit run followed by a dot parses to the same amount as the digit run alone |
| `Amount.DotIsAcceptedButDoesNotParse` | app/src/main/java/com/edamametech/android/coffeedriptimer/ui/CoffeeDripTimerScreen.kt:77-81 | The handler as written stores the lone dot, and the parse of the stored text then fails |
| `Amount.UpdateChecked` | app/src/main/java/com/edamametech/android/coffeedriptimer/ui/CoffeeDripTimerScreen.kt:77-81 | Corrected handler: it takes exactly the pattern texts other than the lone dot, keeps the old amount for every other text, and a parsable amount stays parsable |
| `Amount.CheckedEditsStayParsable` | app/src/main/java/com/edamametech/android/coffeedriptimer/ui/CoffeeDripTimerScreen.kt:77-81 | Any sequence of edits through the corrected handler that starts from a parsable amount ends with a parsable amount |
| `Plan.Targets` | app/src/main/java/com/edamametech/android/coffeedriptimer/ui/CoffeeDripTimerScreen.kt:274-276 | One cumulative target per step of the roast (the value of each target is the contract of `Plan.TargetIsScaledSum`) |
| `Plan.PouredIsScaledSum` | app/src/main/java/com/edamametech/android/coffeedriptimer/ui/CoffeeDripTimerScreen.kt:117-119 | The step-by-step running total `target += factor * beans` after i steps equals beans times the sum of the first i water factors |
| `Plan.TargetIsScaledSum` | app/src/main/java/com/edamametech/android/coffeedriptimer/ui/CoffeeDripTimerScreen.kt:265-276 | Step i's cumulative target is beans times the water factors of steps 0..i |
| `Plan.TargetsMonotone` | app/src/main/java/com/edamametech/android/coffeedriptimer/ui/CoffeeDripTimerScreen.kt:117-119 | Targets never decrease for a non-negative amount and strictly increase for a positive one |
| `Plan.LastTarget` | app/src/main/java/com/edamametech/android/coffeedriptimer/ui/CoffeeDripTimerScreen.kt:117-119 | The final target is beans times the total water factor of the roast |
| `Plan.WaitUntilNext` | app/src/main/java/com/edamametech/android/coffeedriptimer/ui/CoffeeDripTimerScreen.kt:136 | The next wait boundary is the current one plus this step's wait |
| `Plan.WaterSumNext` | app/src/main/java/com/edamametech/android/coffeedriptimer/ui/CoffeeDripTimerScreen.kt:119 | The water factor sum over i + 1 steps is the sum over i steps plus step i's factor |
| `Plan.WaitUntilIncreases` | app/src/main/java/com/edamametech/android/coffeedriptimer/ui/CoffeeDripTimerScreen.kt:136 | Wait boundaries grow by at least one 60000 ms unit per step, so later steps begin strictly later |
| `Plan.WaterSumIncreases` | app/src/main/java/com/edamametech/android/coffeedriptimer/ui/CoffeeDripTimerScreen.kt:119 | Prefix sums of water factors grow by at least 5.0 per added step |
| `Plan.DarkTenPlan` | app/src/main/java/com/edamametech/android/coffeedriptimer/ui/CoffeeDripTimerScreen.kt:62-67 | Dark roast, 10 g: targets 50, 100, 150, 200; each of the three waits is 120000 ms; the last pour begins 360000 ms after the start |
| `Plan.MediumTwentyPlan` | app/src/main/java/com/edamametech/android/coffeedriptimer/ui/CoffeeDripTimerScreen.kt:57-61 | Medium roast, 20 g: targets 100, 250, 400; waits 120000 and 180000 ms; the last pour begins 300000 ms after the start |
| `Alarms.Request` | app/src/main/java/com/edamametech/android/coffeedriptimer/notifier/ScheduleTImerNotification.kt:11-29 | A request replaces whatever the key held with the new alarm; when the facility refuses, the key holds no alarm; other keys are untouched |
| `Alarms.CancelRange` | app/src/main/java/com/edamametech/android/coffeedriptimer/ui/CoffeeDripTimerScreen.kt:143 | Cancelling a key range removes exactly the keys in the range, both ends included, and keeps every other alarm as it was |
| `Notifications.MessageFor` | app/src/main/java/com/edamametech/android/coffeedriptimer/ui/CoffeeDripTimerScreen.kt:120-130 | Step i's message uses the "done" template if and only if i is the last step, and carries step i's cumulative target |
| `Notifications.MessageAmount` | app/src/main/java/com/edamametech/android/coffeedriptimer/ui/CoffeeDripTimerScreen.kt:119-130 | Step i's message carries beans times the water factors of steps 0..i |
| `Notifications.Schedule` | app/src/main/java/com/edamametech/android/coffeedriptimer/ui/CoffeeDripTimerScreen.kt:118-137 | A start never sets an alarm under key 0, because step 0 is shown at once, and sets none at all for a roast of at most one step |
| `Notifications.ScheduleFromContents` | app/src/main/java/com/edamametech/android/coffeedriptimer/ui/CoffeeDripTimerScreen.kt:118-137 | Requesting keys i..n-1 in order leaves each accepted key with its step's planned alarm and each refused key empty, and changes no other key |
| `Notifications.ScheduleContents` | app/src/main/java/com/edamametech/android/coffeedriptimer/ui/CoffeeDripTimerScreen.kt:131-136 | After a start, key k in 1..n-1 holds the alarm at start plus the waits of steps before k, unless refused; key 0 and all other keys are untouched |
| `Notifications.ScheduleNotifications` | app/src/main/java/com/edamametech/android/coffeedriptimer/ui/CoffeeDripTimerScreen.kt:109-138 | The scheduling loop, with its own running target and running instant, shows step 0's message at once and leaves exactly the alarm map of the pure schedule |
| `Notifications.CancelNotifications` | app/src/main/java/com/edamametech/android/coffeedriptimer/ui/CoffeeDripTimerScreen.kt:140-145 | Cancellation removes exactly keys 1..n-1 and nothing else, and does nothing when the roast has at most one step |
| `Notifications.FireTimesIncrease` | app/src/main/java/com/edamametech/android/coffeedriptimer/ui/CoffeeDripTimerScreen.kt:131-136 | Every alarm fires after the start, and a later step's alarm fires strictly later |
| `Notifications.CancelUndoesSchedule` | app/src/main/java/com/edamametech/android/coffeedriptimer/ui/CoffeeDripTimerScreen.kt:131-145 | Cancelling after scheduling gives back the original alarm map whenever it held no step key |
| `Notifications.ScheduledKeys` | app/src/main/java/com/edamametech/android/coffeedriptimer/ui/CoffeeDripTimerScreen.kt:131-134 | The keys a start adds are exactly the accepted keys in 1..n-1, so the keys added and the keys cancelled coincide |
| `Notifications.CancelNotificationsIsCancelAll` | app/src/main/java/com/edamametech/android/coffeedriptimer/notifier/ScheduleTImerNotification.kt:31-34 | When the facility holds only step keys 1..n-1, the call site's range cancellation and the notifier's cancel-all leave the same empty map |
| `Notifications.CancelNotificationsIdempotent` | app/src/main/java/com/edamametech/android/coffeedriptimer/ui/CoffeeDripTimerScreen.kt:140-145 | Cancelling twice leaves the same alarms as cancelling once |
| `Notifications.MediumTwentySchedule` | app/src/main/java/com/edamametech/android/coffeedriptimer/ui/CoffeeDripTimerScreen.kt:109-138 | Medium roast, 20 g, started at t with no refusal: key 1 at t + 120000 with the wait template for 250, key 2 at t + 300000 with the done template for 400, nothing else |
| `Display.RemainingAt` | app/src/main/java/com/edamametech/android/coffeedriptimer/ui/CoffeeDripTimerScreen.kt:286-296 | The remaining time lies in [0, stepWait]; it is the full wait if and only if the brew is idle, unsampled or the clock has not passed the wait's start; it is 0 if and only if the clock has reached the next step's start; inside the window it is the time to the window's end |
| `Display.Completes` | app/src/main/java/com/edamametech/android/coffeedriptimer/ui/CoffeeDripTimerScreen.kt:307-309 | With two or more steps the completion callback fires if and only if the brew is running and the clock sample has reached the start plus every wait; with fewer it fires on every composition |
| `Display.ActiveStepView` | app/src/main/java/com/edamametech/android/coffeedriptimer/ui/CoffeeDripTimerScreen.kt:286-296 | While step i is in its wait, earlier steps show 0, step i shows a positive time at most its wait, and later steps show their full wait |
| `Display.WaitText` | app/src/main/java/com/edamametech/android/coffeedriptimer/ui/CoffeeDripTimerScreen.kt:297-298 | For a non-negative remaining time the seconds are below 60 and minutes*60 + seconds is the remaining time rounded half-up to whole seconds |
| `Display.BrewStepsDisplay` | app/src/main/java/com/edamametech/android/coffeedriptimer/ui/CoffeeDripTimerScreen.kt:265-310 | The display loop, with its own running target and wait boundary, produces the plan's targets, the remaining time of every step but the last, and the completion flag |
| `Display.WaitTextHalfSecond` | app/src/main/java/com/edamametech/android/coffeedriptimer/ui/CoffeeDripTimerScreen.kt:297-298 | 499 ms shows 0:00 and 500 ms shows 0:01 |
| `Display.WaitTextMinutes` | app/src/main/java/com/edamametech/android/coffeedriptimer/ui/CoffeeDripTimerScreen.kt:297-298 | 150000 ms shows 2:30 |
| `Display.DarkBoundary` | app/src/main/java/com/edamametech/android/coffeedriptimer/ui/CoffeeDripTimerScreen.kt:288-296 | Dark roast: 119999 ms in, step 0 has 1 ms left; exactly at 120000 ms step 0 shows 0 and step 1 its full 120000 ms |
| `Display.MediumMidway` | app/src/main/java/com/edamametech/android/coffeedriptimer/ui/CoffeeDripTimerScreen.kt:286-309 | Medium roast: 150000 ms in, step 0 shows 0 and step 1 has 150000 ms left; the brew completes at 300000 ms and not at 299999 ms |
| `Screen.StartTimer` | app/src/main/java/com/edamametech/android/coffeedriptimer/ui/CoffeeDripTimerScreen.kt:99-102 | Start records the click instant and queues exactly one more ticker callback, changing nothing else |
| `Screen.CancelTimer` | app/src/main/java/com/edamametech/android/coffeedriptimer/ui/CoffeeDripTimerScreen.kt:104-106 | Cancelling the timer leaves the brew idle and changes nothing else, so a queued callback stays queued |
| `Screen.StartAlarms` | app/src/main/java/com/edamametech/android/coffeedriptimer/ui/CoffeeDripTimerScreen.kt:109-138 | Start's scheduling throws if and only if the amount does not parse; otherwise it changes only the alarms and the notification slot, and every accepted later step's alarm is at the recorded start (or `now` when none is recorded) plus the earlier waits |
| `Screen.CancelStepAlarms` | app/src/main/java/com/edamametech/android/coffeedriptimer/ui/CoffeeDripTimerScreen.kt:140-145 | Cancel's alarm step removes exactly the step keys 1..n-1 of the current roast and changes nothing else |
| `Screen.Compose` | app/src/main/java/com/edamametech/android/coffeedriptimer/ui/CoffeeDripTimerScreen.kt:165-171 | A recomposition throws if and only if the amount does not parse; otherwise it only ever clears the start instant, never touches an idle screen, and ends a running brew of two or more steps if and only if the clock sample has reached the start plus every wait |
| `Screen.Step` | app/src/main/java/com/edamametech/android/coffeedriptimer/ui/CoffeeDripTimerScreen.kt:147-190 | The screen throws only when the amount does not parse, and then only on a Start while idle or on a recomposition; the disabled inputs and Start do nothing while running, and Cancel does nothing while idle |
| `Screen.InitialIsGood` | app/src/main/java/com/edamametech/android/coffeedriptimer/ui/CoffeeDripTimerScreen.kt:72-75 | The fresh screen (amount "10", dark roast, not started) is idle and its amount is in the input pattern |
| `Screen.StepPreservesGood` | app/src/main/java/com/edamametech/android/coffeedriptimer/ui/CoffeeDripTimerScreen.kt:77-106 | Every event keeps the amount inside the input pattern and keeps a ticker callback queued while the brew runs |
| `Screen.StartOnlyWhenIdle` | app/src/main/java/com/edamametech/android/coffeedriptimer/ui/CoffeeDripTimerScreen.kt:99-102 | Start is ignored while running; when idle it succeeds if and only if the amount parses, records the click instant, posts step 0's message at once, leaves key 0 alone, and sets each accepted later step's alarm at the start plus the earlier waits with the done template on the last |
| `Screen.CancelIsIdempotent` | app/src/main/java/com/edamametech/android/coffeedriptimer/ui/CoffeeDripTimerScreen.kt:181-188 | Cancel leaves the brew idle with no step alarm left, does nothing when already idle, and a second cancel changes nothing |
| `Screen.CancelTimerIsIdempotent` | app/src/main/java/com/edamametech/android/coffeedriptimer/ui/CoffeeDripTimerScreen.kt:104-106 | Clearing the start instant twice is clearing it once, and the result is idle |
| `Screen.InputsFrozenWhileRunning` | app/src/main/java/com/edamametech/android/coffeedriptimer/ui/CoffeeDripTimerScreen.kt:152-163 | While a brew runs no event changes the amount or the roast, so the plan cannot change mid-brew |
| `Screen.EditWhenIdle` | app/src/main/java/com/edamametech/android/coffeedriptimer/ui/CoffeeDripTimerScreen.kt:152-157 | An amount edit on an idle screen takes the text when it matches the pattern and otherwise changes nothing |
| `Screen.Tick` | app/src/main/java/com/edamametech/android/coffeedriptimer/ui/CoffeeDripTimerScreen.kt:88-98 | A queued callback re-posts itself if and only if the brew runs, and only then samples the clock; an idle callback ends and leaves the queue one shorter; nothing else changes |
| `Screen.IdleTickersDrain` | app/src/main/java/com/edamametech/android/coffeedriptimer/ui/CoffeeDripTimerScreen.kt:88-98 | Once the brew is idle, as many callbacks as were queued empty the queue without touching the clock sample |
| `Screen.RunningTickerNeverStops` | app/src/main/java/com/edamametech/android/coffeedriptimer/ui/CoffeeDripTimerScreen.kt:88-98 | While the brew runs, any run of callbacks keeps the queue length and leaves the latest callback's instant as the clock sample |
| `Screen.CompletionAtLastAlarm` | app/src/main/java/com/edamametech/android/coffeedriptimer/ui/CoffeeDripTimerScreen.kt:170 | After a start at t, the last step's alarm is set at the completion instant, and a recomposition ends the brew if and only if its clock sample has reached that instant |
| `Screen.StartThenCancelRestoresAlarms` | app/src/main/java/com/edamametech/android/coffeedriptimer/ui/CoffeeDripTimerScreen.kt:172-188 | Start followed by Cancel leaves the brew idle and the alarm facility as it was, if it held no step key before |
| `Screen.DotCrashesDisplay` | app/src/main/java/com/edamametech/android/coffeedriptimer/ui/CoffeeDripTimerScreen.kt:266-270 | On a fresh screen the lone dot is accepted as the amount, and the next recomposition throws |
| `Screen.QuickRestartQueuesTwoTickers` | app/src/main/java/com/edamametech/android/coffeedriptimer/ui/CoffeeDripTimerScreen.kt:87-102 | Cancel then Start before the old ticker callback has run leaves two self-re-posting callbacks queued for the new brew |

## Left out

- Compose layout and widgets are not modelled: text fields, dropdown, buttons, images and the preview. Only the `enabled` flags are modelled, as events a disabled widget does not deliver.
- `String.format` and the string resources are not modelled. A message is its template (`PourThenWait` / `PourThenDone`) and its amount.
- The `Handler`/`Runnable` ticker is not a real timer. It is a count of queued callbacks, and the clock reading is the `now` of each event.
- `System.currentTimeMillis()` is not called. The instant is a parameter of Start and of each tick.
- Android alarm delivery (`TimerReceiver`) is not modelled. The facility is the map of alarms requested and not cancelled; delivery does not remove them. So after a brew completes on its own, its step keys stay in the map, and `Screen.StartThenCancelRestoresAlarms` and `Notifications.CancelUndoesSchedule` do not apply to a following brew. Which keys the facility refuses is a parameter.
- The immediate notification is not modelled in detail. It is the content of the app's single notification slot, and the case where the OS drops it for lack of notification permission is not modelled.
- Notification channel creation and the permission requests are OS set-up and are not modelled.
- `Amount.ParseBeans`: bean amounts are exact reals, and the `Double` rounding of `toDouble()` and of the accumulation is not modelled.
- `Amount.ParseBeans`: texts outside the input pattern also fail, whereas `toDouble()` would accept some of them (for example "1e3"). Every stored amount is inside the pattern (`Screen.StepPreservesGood`), so such texts never reach the parse.
- Amount.MatchesIsAmountPattern: `\d` is taken to be the ASCII digits `0-9`, the `java.util.regex` default. Android's ICU-backed engine also counts other Unicode decimal digits (for example Arabic-Indic `١`) as `\d`. If it does, such a digit passes the filter, and `toDouble()` would then be a second input that throws besides the lone dot. So on Android `Amount.ParseFailsOnlyOnDot` covers only texts in ASCII digits. Modelling this would need the Unicode digit tables, which are platform data outside this model.
- Times are unbounded integers, and 64-bit `Long` overflow is not modelled. Instants near the present are about 1.7e12 ms, far from the limit.
- Activity recreation is not modelled, whether from a configuration change such as rotation or from a process restart. On recreation `startedAt` comes back through `rememberSaveable`, but `currentAt` uses plain `remember` and comes back null. The queued `updater` still reads the old composition's `startedAt`, so it keeps re-posting itself and no ticker samples the clock for the new screen. The countdown then shows the full waits and the brew never completes until Cancel. In the app `Screen.Good` ("a running brew has a ticker queued") therefore no longer holds after recreation.

## Findings

| source | as written | input that shows it | evidently intended | confidence | as-written member | corrected member |
|---|---|---|---|---|---|---|
| app/src/main/java/com/edamametech/android/coffeedriptimer/ui/CoffeeDripTimerScreen.kt:78 | The input filter `\d*([.]\d*)?` admits the lone dot. The display then calls `toDouble()` on it (line 267), which throws `NumberFormatException` during composition. | Typing "." into an empty amount field | The filter should accept only texts that parse, so that every stored amount can be displayed | high, not executed | `Amount.DotIsAcceptedButDoesNotParse` (screen-level: `Screen.DotCrashesDisplay`) | `Amount.UpdateChecked` |

The screen model keeps the handler as written (`Amount.Update`), because that is what the
app does. The crash is then visible as the `Failure` of `Screen.Step`. The corrected handler
`Amount.UpdateChecked` takes exactly the pattern texts other than the lone dot and keeps the
old amount otherwise. It is proved to keep every parsable amount parsable. So any run of edits
through it that starts from a parsable amount, such as the initial "10", ends with a parsable
amount (`Amount.CheckedEditsStayParsable`), and the parse the display runs on it does not fail. A different repair would keep the filter and read the lone dot
as 0. That repair is not modelled.

=== FILE: alarms.dfy ===
/** The alarm facility as the screen uses it: one alarm per key, requested and not cancelled. */
module Alarms {

  /** The two notification templates: "pour to X, then wait" and "pour to X, then done". */
  datatype Message = PourThenWait(amount: real) | PourThenDone(amount: real)

  datatype Alarm = Alarm(at: int, message: Message)

  /** Alarms by request code: those requested and not cancelled. Delivery does not remove
      an alarm from the map. */
  type AlarmMap = map<int, Alarm>

  /** One request to schedule `message` at `at` under `key`. Creating the pending intent
      cancels the one already held under `key` before the alarm is set, so the key's old
      alarm never survives; when the facility refuses (a swallowed security exception)
      the key is left with no alarm at all. */
  function Request(m: AlarmMap, key: int, at: int, message: Message, refused: bool): (r: AlarmMap)
    ensures !refused ==> key in r && r[key] == Alarm(at, message)
    ensures refused ==> key !in r
    ensures forall k :: k != key ==> (k in r <==> k in m)
    ensures forall k :: k != key && k in r ==> r[k] == m[k]
  {
    if refused then m - {key} else m[key := Alarm(at, message)]
  }

  /** Cancellation of every key in `lo..hi`, both ends included. */
  function CancelRange(m: AlarmMap, lo: int, hi: int): (r: AlarmMap)
    ensures forall k :: k in r <==> k in m && !(lo <= k <= hi)
    ensures forall k :: k in r ==> r[k] == m[k]
  {
    map k | k in m && !(lo <= k <= hi) :: m[k]
  }

  /** The notifier's own cancellation, which drops every alarm of the app. */
  function CancelAll(m: AlarmMap): AlarmMap
  {
    map[]
  }
}

=== FILE: amount.dfy ===
/** The bean-amount text field: the input filter and the text-to-number parse. */
module Amount {
  import opened Wrappers

  predicate IsDigit(c: char) {
    '0' <= c <= '9'
  }

  predicate AllDigits(s: string) {
    forall i :: 0 <= i < |s| ==> IsDigit(s[i])
  }

  /** Whole-text match of the regular expression `\d*([.]\d*)?`, with `\d` the
      ASCII digits: a digit run, optionally followed by a dot and a second digit run. */
  ghost predicate AmountPattern(s: string) {
    exists k :: 0 <= k <= |s| && AllDigits(s[..k]) && (k == |s| || (s[k] == '.' && AllDigits(s[k + 1..])))
  }

  /** The end of the digit run that starts at `k`. */
  function DigitRunEnd(s: string, k: nat): (e: nat)
    requires k <= |s|
    ensures k <= e <= |s|
    ensures AllDigits(s[k..e])
    ensures e < |s| ==> !IsDigit(s[e])
    decreases |s| - k
  {
    if k < |s| && IsDigit(s[k]) then DigitRunEnd(s, k + 1) else k
  }

  /** The matcher: scan a digit run, then accept the end of text or a dot followed by a digit run to the end. */
  predicate Matches(s: string) {
    var k := DigitRunEnd(s, 0);
    k == |s| || (s[k] == '.' && DigitRunEnd(s, k + 1) == |s|)
  }

  lemma DigitRunEndOfDigits(s: string, k: nat)
    requires k <= |s|
    requires AllDigits(s[k..])
    ensures DigitRunEnd(s, k) == |s|
  {
    var e := DigitRunEnd(s, k);
    if e < |s| {
      assert false;
    }
  }

  /** The scanner accepts exactly the texts of the pattern. */
  lemma MatchesIsAmountPattern(s: string)
    ensures Matches(s) <==> AmountPattern(s)
  {
    var k := DigitRunEnd(s, 0);
    assert s[..k] == s[0..k];
    if Matches(s) {
      if k < |s| {
        assert s[k + 1..] == s[k + 1..DigitRunEnd(s, k + 1)];
      }
      assert AllDigits(s[..k]) && (k == |s| || (s[k] == '.' && AllDigits(s[k + 1..])));
    } else if AmountPattern(s) {
      var j :| 0 <= j <= |s| && AllDigits(s[..j]) && (j == |s| || (s[j] == '.' && AllDigits(s[j + 1..])));
      if j < k {
        assert false;
      } else if j > k {
        assert false;
      } else {
        assert false;
      }
    }
  }

  /** The amount field's change handler: a text outside the pattern is ignored. */
  function Update(amount: string, text: string): (r: string)
    ensures AmountPattern(text) ==> r == text
    ensures !AmountPattern(text) ==> r == amount
  {
    MatchesIsAmountPattern(text);
    if Matches(text) then text else amount
  }

  function DigitValue(c: char): nat
    requires IsDigit(c)
  {
    c as int - '0' as int
  }

  /** The decimal value of a digit run. */
  function DigitsValue(s: string): nat
    requires AllDigits(s)
  {
    if s == [] then 0 else DigitsValue(s[..|s| - 1]) * 10 + DigitValue(s[|s| - 1])
  }

  function Pow10(n: nat): (p: nat)
    ensures p >= 1
  {
    if n == 0 then 1 else 10 * Pow10(n - 1)
  }

  /** The number `whole.frac`, where `frac` spells `places` digits after the point. */
  function Decimal(whole: nat, frac: nat, places: nat): (d: real)
    ensures d >= whole as real
  {
    whole as real + frac as real / Pow10(places) as real
  }

  /** The exception `toDouble()` throws. */
  datatype ParseError = NumberFormat

  /** The bean amount of a text: 0 for the empty text, otherwise the decimal the text
      spells. The lone dot, which the pattern admits, has no value and fails; so does
      any text outside the pattern. */
  function ParseBeans(text: string): (r: Result<real, ParseError>)
    ensures r.Success? ==> r.value >= 0.0
    ensures text == "" ==> r == Success(0.0)
  {
    if text == [] then Success(0.0)
    else
      var k := DigitRunEnd(text, 0);
      if k == |text| then Success(DigitsValue(text[0..k]) as real)
      else if text[k] != '.' then Failure(NumberFormat)
      else
        var e := DigitRunEnd(text, k + 1);
        if e != |text| || text == "." then Failure(NumberFormat)
        else Success(Decimal(DigitsValue(text[0..k]), DigitsValue(text[k + 1..e]), e - k - 1))
  }

  /** A text in the input pattern fails to parse exactly when it is the lone dot. */
  lemma ParseFailsOnlyOnDot(text: string)
    ensures AmountPattern(text) ==> (ParseBeans(text).Failure? <==> text == ".")
  {
    MatchesIsAmountPattern(text);
  }

  function DigitChar(d: nat): (c: char)
    requires d < 10
    ensures IsDigit(c) && DigitValue(c) == d
  {
    ('0' as int + d) as char
  }

  /** The usual decimal spelling of a whole number. */
  function DecimalText(n: nat): (s: string)
    ensures s != [] && AllDigits(s)
  {
    if n < 10 then [DigitChar(n)] else DecimalText(n / 10) + [DigitChar(n % 10)]
  }

  lemma {:induction false} DigitsValueOfDecimalText(n: nat)
    ensures DigitsValue(DecimalText(n)) == n
  {
    var s := DecimalText(n);
    if n >= 10 {
      assert s[..|s| - 1] == DecimalText(n / 10);
      DigitsValueOfDecimalText(n / 10);
    }
  }

  /** Parsing inverts the decimal spelling of whole numbers. */
  lemma ParseDecimalText(n: nat)
    ensures ParseBeans(DecimalText(n)) == Success(n as real)
  {
    var s := DecimalText(n);
    DigitRunEndOfDigits(s, 0);
    assert s[0..|s|] == s;
    DigitsValueOfDecimalText(n);
  }

  /** A trailing dot does not change the value: "12." is 12. */
  lemma ParseTrailingDot(a: string)
    requires a != [] && AllDigits(a)
    ensures ParseBeans(a + ".") == ParseBeans(a)
  {
    var s := a + ".";
    assert s[..|a|] == a;
    DigitRunEndOfDigits(a, 0);
    assert a[..|a|] == a;
    assert DigitRunEnd(s, 0) == |a| by {
      assert AllDigits(s[0..|a|]);
      DigitRunEndPrefix(s, a);
    }
    assert s[|a| + 1..|s|] == [];
    assert s[0..|a|] == a[0..|a|];
  }

  /** Appending digits shifts the value left by one decimal place per digit. */
  lemma {:induction false} DigitsValueAppend(a: string, f: string)
    requires AllDigits(a) && AllDigits(f)
    ensures AllDigits(a + f)
    ensures DigitsValue(a + f) == DigitsValue(a) * Pow10(|f|) + DigitsValue(f)
    decreases |f|
  {
    assert forall i :: 0 <= i < |a + f| ==> (a + f)[i] == if i < |a| then a[i] else f[i - |a|];
    if f == [] {
      assert a + f == a;
    } else {
      var g := f[..|f| - 1];
      var d := f[|f| - 1];
      assert AllDigits(g);
      DigitsValueAppend(a, g);
      assert (a + f)[..|a + f| - 1] == a + g;
      assert (a + f)[|a + f| - 1] == d;
      assert DigitsValue(a + f) == DigitsValue(a + g) * 10 + DigitValue(d);
      assert DigitsValue(f) == DigitsValue(g) * 10 + DigitValue(d);
      ShiftOneDigit(DigitsValue(a), Pow10(|g|), DigitsValue(g), DigitValue(d));
    }
  }

  lemma ShiftOneDigit(x: nat, p: nat, y: nat, d: nat)
    ensures (x * p + y) * 10 + d == x * (10 * p) + (y * 10 + d)
  {
  }

  /** `whole.frac` is the digits of both parts read as one number, over ten to the power
      of the number of places. */
  lemma DecimalAsQuotient(whole: nat, frac: nat, places: nat, joined: nat)
    requires joined == whole * Pow10(places) + frac
    ensures Decimal(whole, frac, places) == joined as real / Pow10(places) as real
  {
    var q := Pow10(places);
    var p := q as real;
    assert Decimal(whole, frac, places) == whole as real + frac as real / p;
    ProductAsReal(whole, q, whole * q);
    assert joined as real == (whole * q) as real + frac as real;
    FractionSum(whole as real, frac as real, p);
  }

  lemma ProductAsReal(a: int, b: int, ab: int)
    requires ab == a * b
    ensures ab as real == a as real * b as real
  {
  }

  lemma FractionSum(x: real, y: real, p: real)
    requires p >= 1.0
    ensures x + y / p == (x * p + y) / p
  {
  }

  /** A text of digits, a dot and digits, other than the lone dot, parses to the decimal
      whose whole part is the digits before the dot and whose fraction is the digits after it. */
  lemma ParseWithDot(s: string, k: nat)
    requires k < |s| && s[k] == '.' && s != "."
    requires AllDigits(s[..k]) && AllDigits(s[k + 1..])
    ensures ParseBeans(s) == Success(Decimal(DigitsValue(s[..k]), DigitsValue(s[k + 1..]), |s| - k - 1))
  {
    assert |s[..k]| == k && s[..|s[..k]|] == s[..k];
    DigitRunEndPrefix(s, s[..k]);
    DigitRunEndOfDigits(s, k + 1);
    assert s[0..k] == s[..k];
    assert s[k + 1..|s|] == s[k + 1..];
  }

  /** A text with a dot parses to its digits read as one number and divided by ten to the
      power of the number of digits after the dot: "1.5" is 15/10, ".5" is 5/10 and
      "2.05" is 205/100. Only the lone dot, with no digit on either side, fails. */
  lemma ParseFraction(a: string, f: string)
    requires AllDigits(a) && AllDigits(f)
    requires a + f != []
    ensures AllDigits(a + f)
    ensures ParseBeans(a + "." + f) == Success(DigitsValue(a + f) as real / Pow10(|f|) as real)
  {
    var s := a + "." + f;
    assert s[..|a|] == a;
    assert s[|a| + 1..] == f;
    assert s != "." by {
      assert |s| == |a| + |f| + 1;
    }
    ParseWithDot(s, |a|);
    DigitsValueAppend(a, f);
    DecimalAsQuotient(DigitsValue(a), DigitsValue(f), |f|, DigitsValue(a + f));
  }

  /** "1.5" is one and a half grams. */
  lemma ParseOneAndAHalf()
    ensures ParseBeans("1.5") == Success(1.5)
  {
    var a, f := "1", "5";
    assert AllDigits(a) && AllDigits(f);
    assert a + "." + f == "1.5";
    ParseFraction(a, f);
    assert a + f == "15" && (a + f)[..1] == a;
    assert DigitsValue(a + f) == 15;
    assert Pow10(|f|) == 10;
  }

  /** ".5" is half a gram: the whole part may be empty. */
  lemma ParseHalf()
    ensures ParseBeans(".5") == Success(0.5)
  {
    var a, f := "", "5";
    assert AllDigits(a) && AllDigits(f);
    assert a + "." + f == ".5";
    ParseFraction(a, f);
    assert a + f == f;
    assert DigitsValue(f) == 5;
    assert Pow10(|f|) == 10;
  }

  /** "2.05" keeps the leading zero of its fraction. */
  lemma ParseTwoPointZeroFive()
    ensures ParseBeans("2.05") == Success(2.05)
  {
    var a, f := "2", "05";
    assert AllDigits(a) && AllDigits(f);
    assert a + "." + f == "2.05";
    ParseFraction(a, f);
    assert a + f == "205" && (a + f)[..2] == "20" && "20"[..1] == a;
    assert DigitsValue(a + f) == 205;
    assert Pow10(|f|) == 100;
  }

  lemma DigitRunEndPrefix(s: string, a: string)
    requires AllDigits(a) && |a| < |s| && s[..|a|] == a && !IsDigit(s[|a|])
    ensures DigitRunEnd(s, 0) == |a|
  {
    var e := DigitRunEnd(s, 0);
    if e < |a| {
      assert false;
    } else if e > |a| {
      assert false;
    }
  }

  /** The handler as written admits the lone dot, and the parse that the display runs on
      every recomposition then fails. */
  lemma DotIsAcceptedButDoesNotParse(amount: string)
    ensures Update(amount, ".") == "."
    ensures ParseBeans(".").Failure?
  {
    ParseFailsOnlyOnDot(".");
    assert AllDigits(""[..0]);
    assert ".."[..0] == "";
    assert AmountPattern(".") by {
      assert "."[..0] == "" && "."[1..] == "";
    }
  }

  /** The handler as evidently intended: a text is taken only when it also parses. */
  function UpdateChecked(amount: string, text: string): (r: string)
    ensures ParseBeans(amount).Success? ==> ParseBeans(r).Success?
    ensures AmountPattern(text) && text != "." ==> r == text
    ensures !AmountPattern(text) || text == "." ==> r == amount
    ensures r == text || r == amount
  {
    MatchesIsAmountPattern(text);
    ParseFailsOnlyOnDot(text);
    if Matches(text) && ParseBeans(text).Success? then text else amount
  }

  /** The amount after the edits `texts` go through the corrected handler, in order. */
  function CheckedEdits(amount: string, texts: seq<string>): string
    decreases |texts|
  {
    if texts == [] then amount else CheckedEdits(UpdateChecked(amount, texts[0]), texts[1..])
  }

  /** Edits through the corrected handler that start from a parsable amount, such as the
      initial "10", end with a parsable amount, whatever was typed. */
  lemma {:induction false} CheckedEditsStayParsable(amount: string, texts: seq<string>)
    requires ParseBeans(amount).Success?
    ensures ParseBeans(CheckedEdits(amount, texts)).Success?
    decreases |texts|
  {
    if texts != [] {
      CheckedEditsStayParsable(UpdateChecked(amount, texts[0]), texts[1..]);
    }
  }
}

=== FILE: brew_table.dfy ===
/** The static brew table: step kinds, the steps of each roast and the wait unit. */
module BrewTable {

  /** The roast selector (`RoastOfBeans`). */
  datatype Roast = Medium | Dark

  /** A step kind's factors: water poured per gram of beans, and wait length in wait units. */
  datatype BrewStep = BrewStep(waterAmountFactor: real, waitDurationFactor: int)

  /** The two step kinds (`BrewStepTypes`). */
  datatype BrewStepType = Short | Long

  /** Length of one wait unit, in milliseconds. */
  const WaitDurationUnit: int := 60000

  function StepOf(t: BrewStepType): BrewStep
  {
    match t
    case Short => BrewStep(5.0, 2)
    case Long => BrewStep(7.5, 3)
  }

  /** The ordered step kinds brewed for a roast (`brewSteps`). */
  function BrewSteps(r: Roast): seq<BrewStepType>
  {
    match r
    case Medium => [Short, Long, Long]
    case Dark => [Short, Short, Short, Short]
  }

  function WaterOf(t: BrewStepType): real
  {
    StepOf(t).waterAmountFactor
  }

  /** The wait after a step of kind `t`, in milliseconds. */
  function WaitOf(t: BrewStepType): int
  {
    StepOf(t).waitDurationFactor * WaitDurationUnit
  }

  /** Every step kind pours at least 5.0 per gram and waits at least one unit. */
  lemma StepKindsArePositive(t: BrewStepType)
    ensures WaterOf(t) >= 5.0
    ensures WaitOf(t) >= WaitDurationUnit
  {
  }

  /** The table as written: the factors of each kind and the step list of each roast. */
  lemma TableContents()
    ensures WaterOf(Short) == 5.0 && WaitOf(Short) == 120000
    ensures WaterOf(Long) == 7.5 && WaitOf(Long) == 180000
    ensures BrewSteps(Medium) == [Short, Long, Long]
    ensures BrewSteps(Dark) == [Short, Short, Short, Short]
    ensures forall r: Roast :: |BrewSteps(r)| >= 3
  {
  }
}

=== FILE: display.dfy ===
/** The brew-step display: remaining time per step, completion, and minute/second rounding. */
module Display {
  import opened Wrappers
  import opened BrewTable
  import opened Plan

  /** Time left in the wait after step `i` (not the last step), given the session start and
      the last clock sample. A step whose wait has not begun shows its full wait, a step
      inside its wait shows the time to its end, and a step whose wait is over shows 0. */
  function RemainingAt(steps: seq<BrewStepType>, i: nat, startedAt: Option<int>, currentAt: Option<int>): (r: int)
    requires i + 1 < |steps|
    ensures 0 <= r <= WaitOf(steps[i])
    ensures r == WaitOf(steps[i]) <==> startedAt.None? || currentAt.None? || currentAt.value <= WaitUntil(steps, startedAt.value, i)
    ensures r == 0 <==> startedAt.Some? && currentAt.Some? && currentAt.value >= WaitUntil(steps, startedAt.value, i + 1)
    ensures startedAt.Some? && currentAt.Some? && WaitUntil(steps, startedAt.value, i) <= currentAt.value < WaitUntil(steps, startedAt.value, i + 1)
            ==> r == WaitUntil(steps, startedAt.value, i + 1) - currentAt.value
  {
    StepKindsArePositive(steps[i]);
    var stepWait := WaitOf(steps[i]);
    if startedAt.None? || currentAt.None? then stepWait
    else
      var waitUntil := WaitUntil(steps, startedAt.value, i);
      WaitUntilNext(steps, startedAt.value, i);
      if currentAt.value < waitUntil then stepWait
      else if currentAt.value < waitUntil + stepWait then waitUntil + stepWait - currentAt.value
      else 0
  }

  /** The value the display's `remaining` holds after its loop: that of the last step with a
      wait, or its initial 0 when the roast has fewer than two steps. */
  function LastRemaining(steps: seq<BrewStepType>, startedAt: Option<int>, currentAt: Option<int>): int
  {
    if |steps| <= 1 then 0 else RemainingAt(steps, |steps| - 2, startedAt, currentAt)
  }

  /** The display calls its completion callback when the last remaining time is 0: with
      two or more steps exactly when the brew is running and the clock sample has reached
      the start plus every wait; with fewer steps on every composition. */
  predicate Completes(steps: seq<BrewStepType>, startedAt: Option<int>, currentAt: Option<int>): (done: bool)
    ensures |steps| >= 2 ==>
      (done <==> startedAt.Some? && currentAt.Some? && currentAt.value >= WaitUntil(steps, startedAt.value, |steps| - 1))
    ensures |steps| <= 1 ==> done
  {
    LastRemaining(steps, startedAt, currentAt) == 0
  }

  /** While step `i` is in its wait, the steps before it show 0 and the steps after it
      show their full wait. */
  lemma ActiveStepView(steps: seq<BrewStepType>, startedAt: int, currentAt: int, i: nat)
    requires i + 1 < |steps|
    requires WaitUntil(steps, startedAt, i) <= currentAt < WaitUntil(steps, startedAt, i + 1)
    ensures forall j :: 0 <= j < i ==> RemainingAt(steps, j, Some(startedAt), Some(currentAt)) == 0
    ensures 0 < RemainingAt(steps, i, Some(startedAt), Some(currentAt)) <= WaitOf(steps[i])
    ensures forall j :: i < j < |steps| - 1 ==> RemainingAt(steps, j, Some(startedAt), Some(currentAt)) == WaitOf(steps[j])
  {
    forall j | 0 <= j < i
      ensures RemainingAt(steps, j, Some(startedAt), Some(currentAt)) == 0
    {
      if j + 1 < i {
        WaitUntilIncreases(steps, startedAt, j + 1, i);
      }
    }
    forall j | i < j < |steps| - 1
      ensures RemainingAt(steps, j, Some(startedAt), Some(currentAt)) == WaitOf(steps[j])
    {
      if i + 1 < j {
        WaitUntilIncreases(steps, startedAt, i + 1, j);
      }
    }
  }

  /** Kotlin's `Long` division and remainder, which truncate toward zero. */
  function KotlinDiv(a: int, b: int): int
    requires b > 0
  {
    if a >= 0 then a / b else -((-a) / b)
  }

  function KotlinRem(a: int, b: int): int
    requires b > 0
  {
    a - b * KotlinDiv(a, b)
  }

  datatype MinSec = MinSec(min: int, sec: int)

  /** The minutes and seconds shown for a remaining time in milliseconds. For a
      non-negative time the seconds stay below 60 and the shown time is the remaining time
      rounded half-up to whole seconds. */
  function WaitText(remaining: int): (d: MinSec)
    ensures remaining >= 0 ==> 0 <= d.sec < 60 && 0 <= d.min
    ensures remaining >= 0 ==>
      (d.min * 60 + d.sec) * 1000 - 500 <= remaining < (d.min * 60 + d.sec) * 1000 + 500
  {
    var seconds := KotlinDiv(remaining + 500, 1000);
    MinSec(KotlinDiv(seconds, 60), KotlinRem(seconds, 60))
  }

  /** One row of the display: the cumulative target, and the remaining wait of every step
      but the last. */
  datatype StepRow = StepRow(target: real, remaining: Option<int>)

  /** The display's loop: it accumulates the target and the wait boundary step by step,
      and its rows and completion flag agree with the plan and the remaining-time function. */
  method BrewStepsDisplay(steps: seq<BrewStepType>, beans: real, startedAt: Option<int>, currentAt: Option<int>)
    returns (rows: seq<StepRow>, complete: bool)
    ensures |rows| == |steps|
    ensures forall i :: 0 <= i < |steps| ==> rows[i].target == Targets(steps, beans)[i]
    ensures forall i :: 0 <= i < |steps| - 1 ==> rows[i].remaining == Some(RemainingAt(steps, i, startedAt, currentAt))
    ensures steps != [] ==> rows[|steps| - 1].remaining == None
    ensures complete <==> Completes(steps, startedAt, currentAt)
  {
    var targetAmount := 0.0;
    var nSteps := |steps|;
    var waitUntil := startedAt.GetOr(0);
    var remaining := 0;
    rows := [];
    var i := 0;
    while i < nSteps
      invariant 0 <= i <= nSteps
      invariant |rows| == i
      invariant targetAmount == Poured(steps, beans, i)
      invariant startedAt.Some? && i < nSteps ==> waitUntil == WaitUntil(steps, startedAt.value, i)
      invariant forall j :: 0 <= j < i ==> rows[j].target == Targets(steps, beans)[j]
      invariant forall j :: 0 <= j < i && j < nSteps - 1 ==> rows[j].remaining == Some(RemainingAt(steps, j, startedAt, currentAt))
      invariant forall j :: 0 <= j < i && j == nSteps - 1 ==> rows[j].remaining == None
      invariant remaining == if i == 0 || nSteps <= 1 then 0 else RemainingAt(steps, if i < nSteps then i - 1 else nSteps - 2, startedAt, currentAt)
    {
      var s := steps[i];
      targetAmount := targetAmount + WaterOf(s) * beans;
      var row := StepRow(targetAmount, None);
      if i < nSteps - 1 {
        var stepWait := WaitOf(s);
        remaining := if startedAt.None? || currentAt.None? then stepWait
          else if currentAt.value < waitUntil then stepWait
          else if currentAt.value < waitUntil + stepWait then waitUntil + stepWait - currentAt.value
          else 0;
        row := StepRow(targetAmount, Some(remaining));
        if startedAt.Some? {
          WaitUntilNext(steps, startedAt.value, i);
        }
        waitUntil := waitUntil + stepWait;
      }
      rows := rows + [row];
      i := i + 1;
    }
    complete := remaining == 0;
  }

  /** Rounding at the half-second: 499 ms shows 0:00 and 500 ms shows 0:01. */
  lemma WaitTextHalfSecond()
    ensures WaitText(499) == MinSec(0, 0)
    ensures WaitText(500) == MinSec(0, 1)
  {
  }

  /** Two and a half minutes show as 2:30. */
  lemma WaitTextMinutes()
    ensures WaitText(150000) == MinSec(2, 30)
  {
  }

  /** Dark roast started at `t`, sampled 119999 ms in: step 0 has 1 ms left; sampled exactly
      at the boundary, step 0 is over and step 1 shows its full two minutes. */
  lemma DarkBoundary(t: int)
    ensures RemainingAt(BrewSteps(Dark), 0, Some(t), Some(t + 119999)) == 1
    ensures RemainingAt(BrewSteps(Dark), 0, Some(t), Some(t + 120000)) == 0
    ensures RemainingAt(BrewSteps(Dark), 1, Some(t), Some(t + 120000)) == 120000
  {
    DarkTenPlan(t);
    WaitUntilNext(BrewSteps(Dark), t, 0);
    WaitUntilNext(BrewSteps(Dark), t, 1);
  }

  /** Medium roast started at `t`, sampled 150000 ms in: step 0 is over, step 1 has 150 s left
      (2:30), and the brew is not complete until t + 5 min. */
  lemma MediumMidway(t: int)
    ensures RemainingAt(BrewSteps(Medium), 0, Some(t), Some(t + 150000)) == 0
    ensures RemainingAt(BrewSteps(Medium), 1, Some(t), Some(t + 150000)) == 150000
    ensures !Completes(BrewSteps(Medium), Some(t), Some(t + 299999))
    ensures Completes(BrewSteps(Medium), Some(t), Some(t + 300000))
  {
    MediumTwentyPlan(t);
    WaitUntilNext(BrewSteps(Medium), t, 0);
  }
}

=== FILE: notifications.dfy ===
/** Scheduling and cancelling the step notifications of a brew. */
module Notifications {
  import opened Wrappers
  import opened BrewTable
  import opened Plan
  import opened Alarms

  /** The message for step `i`: the "done" template for the last step and for no other,
      carrying the step's cumulative target. */
  function MessageFor(steps: seq<BrewStepType>, beans: real, i: nat): (r: Message)
    requires i < |steps|
    ensures r.PourThenDone? <==> i == |steps| - 1
    ensures r.amount == Targets(steps, beans)[i]
  {
    var target := Targets(steps, beans)[i];
    if i < |steps| - 1 then PourThenWait(target) else PourThenDone(target)
  }

  /** The alarm planned for step `k`: at the instant its pour begins, with its message. */
  function Planned(steps: seq<BrewStepType>, beans: real, startedAt: int, k: nat): Alarm
    requires 1 <= k < |steps|
  {
    Alarm(WaitUntil(steps, startedAt, k), MessageFor(steps, beans, k))
  }

  /** The alarm map after requesting the planned alarms of steps `i..|steps|-1`, in order. */
  function ScheduleFrom(m: AlarmMap, steps: seq<BrewStepType>, beans: real, startedAt: int, refused: set<int>, i: nat): AlarmMap
    requires 1 <= i
    decreases |steps| - i
  {
    if i >= |steps| then m
    else
      var a := Planned(steps, beans, startedAt, i);
      ScheduleFrom(Request(m, i, a.at, a.message, i in refused), steps, beans, startedAt, refused, i + 1)
  }

  /** Requesting keys `i..|steps|-1` leaves each accepted key with its planned alarm,
      no alarm under a refused key, and every other key as it was. */
  lemma {:induction false} ScheduleFromContents(m: AlarmMap, steps: seq<BrewStepType>, beans: real, startedAt: int, refused: set<int>, i: nat)
    requires 1 <= i
    ensures var r := ScheduleFrom(m, steps, beans, startedAt, refused, i);
      && (forall k :: i <= k < |steps| && k !in refused ==> k in r && r[k] == Planned(steps, beans, startedAt, k))
      && (forall k :: i <= k < |steps| && k in refused ==> k !in r)
      && (forall k :: !(i <= k < |steps|) ==> (k in r <==> k in m))
      && (forall k :: !(i <= k < |steps|) && k in r ==> r[k] == m[k])
    decreases |steps| - i
  {
    if i < |steps| {
      var a := Planned(steps, beans, startedAt, i);
      ScheduleFromContents(Request(m, i, a.at, a.message, i in refused), steps, beans, startedAt, refused, i + 1);
    }
  }

  /** The alarms a brew start leaves behind: one per step after the first. Step 0 is shown
      at once, so key 0 is never requested, and a roast of at most one step requests nothing. */
  function Schedule(m: AlarmMap, steps: seq<BrewStepType>, beans: real, startedAt: int, refused: set<int>): (r: AlarmMap)
    ensures 0 in r <==> 0 in m
    ensures 0 in r ==> r[0] == m[0]
    ensures |steps| <= 1 ==> r == m
  {
    ScheduleFromContents(m, steps, beans, startedAt, refused, 1);
    ScheduleFrom(m, steps, beans, startedAt, refused, 1)
  }

  /** After a brew start, key `k` of `1..n-1` holds step `k`'s planned alarm unless the
      facility refused it, in which case it holds none; key 0 and every other key are untouched. */
  lemma ScheduleContents(m: AlarmMap, steps: seq<BrewStepType>, beans: real, startedAt: int, refused: set<int>)
    ensures var r := Schedule(m, steps, beans, startedAt, refused);
      && (forall k :: 1 <= k < |steps| && k !in refused ==> k in r && r[k] == Planned(steps, beans, startedAt, k))
      && (forall k :: 1 <= k < |steps| && k in refused ==> k !in r)
      && (forall k :: !(1 <= k < |steps|) ==> (k in r <==> k in m))
      && (forall k :: !(1 <= k < |steps|) && k in r ==> r[k] == m[k])
  {
    ScheduleFromContents(m, steps, beans, startedAt, refused, 1);
  }

  /** The screen's scheduling loop: step 0 is shown at once, every later step `i` is
      requested under key `i` at the start plus the waits of the steps before it. */
  method ScheduleNotifications(steps: seq<BrewStepType>, beans: real, startedAt: int, alarms: AlarmMap, refused: set<int>)
    returns (shown: Option<Message>, scheduled: AlarmMap)
    ensures shown == if steps == [] then None else Some(MessageFor(steps, beans, 0))
    ensures scheduled == Schedule(alarms, steps, beans, startedAt, refused)
  {
    var notifyAt := startedAt;
    var targetAmount := 0.0;
    var nSteps := |steps|;
    shown := None;
    scheduled := alarms;
    var i := 0;
    while i < nSteps
      invariant 0 <= i <= nSteps
      invariant targetAmount == Poured(steps, beans, i)
      invariant notifyAt == WaitUntil(steps, startedAt, i)
      invariant shown == if i == 0 then None else Some(MessageFor(steps, beans, 0))
      invariant ScheduleFrom(scheduled, steps, beans, startedAt, refused, if i == 0 then 1 else i) == Schedule(alarms, steps, beans, startedAt, refused)
    {
      var s := steps[i];
      targetAmount := targetAmount + WaterOf(s) * beans;
      var message := if i < nSteps - 1 then PourThenWait(targetAmount) else PourThenDone(targetAmount);
      MessageForTarget(steps, beans, i, targetAmount);
      if i == 0 {
        shown := Some(message);
      } else {
        ScheduleFromUnfold(scheduled, steps, beans, startedAt, refused, i);
        scheduled := Request(scheduled, i, notifyAt, message, i in refused);
      }
      WaitUntilNext(steps, startedAt, i);
      notifyAt := notifyAt + WaitOf(s);
      i := i + 1;
    }
  }

  lemma ScheduleFromUnfold(m: AlarmMap, steps: seq<BrewStepType>, beans: real, startedAt: int, refused: set<int>, i: nat)
    requires 1 <= i < |steps|
    ensures ScheduleFrom(m, steps, beans, startedAt, refused, i)
         == ScheduleFrom(Request(m, i, WaitUntil(steps, startedAt, i), MessageFor(steps, beans, i), i in refused), steps, beans, startedAt, refused, i + 1)
  {
  }

  lemma MessageForTarget(steps: seq<BrewStepType>, beans: real, i: nat, target: real)
    requires i < |steps|
    requires target == Targets(steps, beans)[i]
    ensures MessageFor(steps, beans, i) == if i < |steps| - 1 then PourThenWait(target) else PourThenDone(target)
  {
  }

  /** The screen's cancellation: keys `1..n-1` when the roast has more than one step. */
  function CancelNotifications(alarms: AlarmMap, steps: seq<BrewStepType>): (r: AlarmMap)
    ensures forall k :: k in r <==> k in alarms && !(1 <= k < |steps|)
    ensures forall k :: k in r ==> r[k] == alarms[k]
    ensures |steps| <= 1 ==> r == alarms
  {
    var nSteps := |steps|;
    if nSteps > 1 then CancelRange(alarms, 1, nSteps - 1) else alarms
  }

  /** Every alarm fires after the start, and alarms fire strictly later for later steps. */
  lemma FireTimesIncrease(steps: seq<BrewStepType>, beans: real, startedAt: int, j: nat, k: nat)
    requires 1 <= j < k < |steps|
    ensures startedAt < Planned(steps, beans, startedAt, j).at < Planned(steps, beans, startedAt, k).at
  {
    WaitUntilIncreases(steps, startedAt, 0, j);
    WaitUntilIncreases(steps, startedAt, j, k);
  }

  /** The message of step `i` carries the beans times the water factors of steps `0..i`. */
  lemma MessageAmount(steps: seq<BrewStepType>, beans: real, i: nat)
    requires i < |steps|
    ensures MessageFor(steps, beans, i).amount == beans * WaterSum(steps[..i + 1])
  {
    TargetIsScaledSum(steps, beans, i);
  }

  /** Cancelling after scheduling removes exactly what scheduling added: a map that held
      none of the step keys comes back unchanged. */
  lemma CancelUndoesSchedule(alarms: AlarmMap, steps: seq<BrewStepType>, beans: real, startedAt: int, refused: set<int>)
    requires forall k :: 1 <= k < |steps| ==> k !in alarms
    ensures CancelNotifications(Schedule(alarms, steps, beans, startedAt, refused), steps) == alarms
  {
    ScheduleContents(alarms, steps, beans, startedAt, refused);
    var r := CancelNotifications(Schedule(alarms, steps, beans, startedAt, refused), steps);
    assert r.Keys == alarms.Keys;
  }

  /** The keys a schedule adds are exactly the step keys the facility accepted. */
  lemma ScheduledKeys(alarms: AlarmMap, steps: seq<BrewStepType>, beans: real, startedAt: int, refused: set<int>)
    requires forall k :: 1 <= k < |steps| ==> k !in alarms
    ensures forall k :: k in Schedule(alarms, steps, beans, startedAt, refused) && k !in alarms <==> 1 <= k < |steps| && k !in refused
  {
    ScheduleContents(alarms, steps, beans, startedAt, refused);
  }

  /** When the facility holds only this brew's step keys, the cancellation by key range and
      the notifier's cancel-all leave the same (empty) map. */
  lemma CancelNotificationsIsCancelAll(alarms: AlarmMap, steps: seq<BrewStepType>)
    requires forall k :: k in alarms ==> 1 <= k < |steps|
    ensures CancelNotifications(alarms, steps) == CancelAll(alarms)
  {
    assert CancelNotifications(alarms, steps).Keys == {};
  }

  /** Cancelling twice is cancelling once. */
  lemma CancelNotificationsIdempotent(alarms: AlarmMap, steps: seq<BrewStepType>)
    ensures CancelNotifications(CancelNotifications(alarms, steps), steps) == CancelNotifications(alarms, steps)
  {
    var once := CancelNotifications(alarms, steps);
    assert CancelNotifications(once, steps).Keys == once.Keys;
  }

  /** Medium roast, 20 g, started at `t`: step 1 at t + 2 min pouring to 250 with the wait
      template, step 2 at t + 5 min pouring to 400 with the done template. */
  lemma MediumTwentySchedule(t: int)
    ensures Schedule(map[], BrewSteps(Medium), 20.0, t, {}) == map[1 := Alarm(t + 120000, PourThenWait(250.0)), 2 := Alarm(t + 300000, PourThenDone(400.0))]
  {
    var s := BrewSteps(Medium);
    MediumTwentyPlan(t);
    WaitUntilNext(s, t, 0);
    ScheduleContents(map[], s, 20.0, t, {});
    var r := Schedule(map[], s, 20.0, t, {});
    assert r.Keys == {1, 2};
  }
}

=== FILE: plan.dfy ===
/** The brew plan: cumulative pour targets and the wait boundaries of a step list. */
module Plan {
  import opened BrewTable

  /** Sum of the water factors of `steps`. */
  function WaterSum(steps: seq<BrewStepType>): real
  {
    if steps == [] then 0.0 else WaterSum(steps[..|steps| - 1]) + WaterOf(steps[|steps| - 1])
  }

  /** Sum of the waits of `steps`, in milliseconds. */
  function WaitSum(steps: seq<BrewStepType>): int
  {
    if steps == [] then 0 else WaitSum(steps[..|steps| - 1]) + WaitOf(steps[|steps| - 1])
  }

  /** The running total after pouring the first `i` steps, accumulated one step at a time. */
  function Poured(steps: seq<BrewStepType>, beans: real, i: nat): real
    requires i <= |steps|
  {
    if i == 0 then 0.0 else Poured(steps, beans, i - 1) + WaterOf(steps[i - 1]) * beans
  }

  /** The cumulative pour target of every step, as the screen's loops compute it: one
      target per step, the running total after pouring that step. */
  function Targets(steps: seq<BrewStepType>, beans: real): (r: seq<real>)
    ensures |r| == |steps|
  {
    seq(|steps|, i requires 0 <= i < |steps| => Poured(steps, beans, i + 1))
  }

  lemma Distribute(beans: real, a: real, w: real)
    ensures beans * a + w * beans == beans * (a + w)
  {
  }

  lemma {:induction false} PouredIsScaledSum(steps: seq<BrewStepType>, beans: real, i: nat)
    requires i <= |steps|
    ensures Poured(steps, beans, i) == beans * WaterSum(steps[..i])
  {
    if i > 0 {
      PouredIsScaledSum(steps, beans, i - 1);
      WaterSumNext(steps, i - 1);
      Distribute(beans, WaterSum(steps[..i - 1]), WaterOf(steps[i - 1]));
    }
  }

  /** Step `i`'s target is the beans times the water factors of steps `0..i`. */
  lemma TargetIsScaledSum(steps: seq<BrewStepType>, beans: real, i: nat)
    requires i < |steps|
    ensures Targets(steps, beans)[i] == beans * WaterSum(steps[..i + 1])
  {
    PouredIsScaledSum(steps, beans, i + 1);
  }

  /** The instant step `i`'s wait begins: the start plus the waits of all earlier steps. */
  function WaitUntil(steps: seq<BrewStepType>, startedAt: int, i: nat): int
    requires i <= |steps|
  {
    startedAt + WaitSum(steps[..i])
  }

  lemma WaitUntilNext(steps: seq<BrewStepType>, startedAt: int, i: nat)
    requires i < |steps|
    ensures WaitUntil(steps, startedAt, i + 1) == WaitUntil(steps, startedAt, i) + WaitOf(steps[i])
  {
    assert steps[..i + 1][..i] == steps[..i];
  }

  lemma WaterSumNext(steps: seq<BrewStepType>, i: nat)
    requires i < |steps|
    ensures WaterSum(steps[..i + 1]) == WaterSum(steps[..i]) + WaterOf(steps[i])
  {
    assert steps[..i + 1][..i] == steps[..i];
  }

  /** Wait boundaries strictly increase: every step waits at least one unit. */
  lemma {:induction false} WaitUntilIncreases(steps: seq<BrewStepType>, startedAt: int, i: nat, j: nat)
    requires i < j <= |steps|
    ensures WaitUntil(steps, startedAt, i) + WaitDurationUnit * (j - i) <= WaitUntil(steps, startedAt, j)
    decreases j - i
  {
    WaitUntilNext(steps, startedAt, j - 1);
    StepKindsArePositive(steps[j - 1]);
    if i < j - 1 {
      WaitUntilIncreases(steps, startedAt, i, j - 1);
    }
  }

  /** Prefix sums of water factors grow by at least 5 per step. */
  lemma {:induction false} WaterSumIncreases(steps: seq<BrewStepType>, i: nat, j: nat)
    requires i < j <= |steps|
    ensures WaterSum(steps[..i]) + 5.0 * (j - i) as real <= WaterSum(steps[..j])
    decreases j - i
  {
    WaterSumNext(steps, j - 1);
    StepKindsArePositive(steps[j - 1]);
    if i < j - 1 {
      WaterSumIncreases(steps, i, j - 1);
    }
  }

  /** Targets never decrease for a non-negative amount and strictly increase for a positive one. */
  lemma TargetsMonotone(steps: seq<BrewStepType>, beans: real, i: nat, j: nat)
    requires i < j < |steps|
    ensures beans >= 0.0 ==> Targets(steps, beans)[i] <= Targets(steps, beans)[j]
    ensures beans > 0.0 ==> Targets(steps, beans)[i] < Targets(steps, beans)[j]
  {
    WaterSumIncreases(steps, i + 1, j + 1);
    var a := WaterSum(steps[..i + 1]);
    var b := WaterSum(steps[..j + 1]);
    TargetIsScaledSum(steps, beans, i);
    TargetIsScaledSum(steps, beans, j);
    ScaleMonotone(beans, a, b, Targets(steps, beans)[i], Targets(steps, beans)[j]);
  }

  lemma ScaleMonotone(beans: real, a: real, b: real, ta: real, tb: real)
    requires a < b && ta == beans * a && tb == beans * b
    ensures beans >= 0.0 ==> ta <= tb
    ensures beans > 0.0 ==> ta < tb
  {
  }

  /** The last target is the beans times the total water factor. */
  lemma LastTarget(steps: seq<BrewStepType>, beans: real)
    requires steps != []
    ensures Targets(steps, beans)[|steps| - 1] == beans * WaterSum(steps)
  {
    TargetIsScaledSum(steps, beans, |steps| - 1);
    assert steps[..|steps|] == steps;
  }

  /** Dark roast with 10 g of beans: four pours to 50, 100, 150 and 200, each two minutes apart. */
  lemma DarkTenPlan(startedAt: int)
    ensures Targets(BrewSteps(Dark), 10.0) == [50.0, 100.0, 150.0, 200.0]
    ensures forall i :: 0 <= i < 3 ==> WaitOf(BrewSteps(Dark)[i]) == 120000
    ensures WaitUntil(BrewSteps(Dark), startedAt, 3) == startedAt + 360000
  {
    var s := BrewSteps(Dark);
    WaterSumNext(s, 0);
    WaterSumNext(s, 1);
    WaterSumNext(s, 2);
    WaterSumNext(s, 3);
    WaitUntilNext(s, startedAt, 0);
    WaitUntilNext(s, startedAt, 1);
    WaitUntilNext(s, startedAt, 2);
    var t := Targets(s, 10.0);
    assert t[0] == 50.0 && t[1] == 100.0 && t[2] == 150.0 && t[3] == 200.0;
  }

  /** Medium roast with 20 g of beans: pours to 100, 250 and 400, waiting two then three minutes. */
  lemma MediumTwentyPlan(startedAt: int)
    ensures Targets(BrewSteps(Medium), 20.0) == [100.0, 250.0, 400.0]
    ensures WaitOf(BrewSteps(Medium)[0]) == 120000 && WaitOf(BrewSteps(Medium)[1]) == 180000
    ensures WaitUntil(BrewSteps(Medium), startedAt, 2) == startedAt + 300000
  {
    var s := BrewSteps(Medium);
    WaterSumNext(s, 0);
    WaterSumNext(s, 1);
    WaterSumNext(s, 2);
    WaitUntilNext(s, startedAt, 0);
    WaitUntilNext(s, startedAt, 1);
    var t := Targets(s, 20.0);
    assert t[0] == 100.0 && t[1] == 250.0 && t[2] == 400.0;
  }
}

=== FILE: screen.dfy ===
/** The timer screen as a state machine: inputs, start, cancel, the one-second ticker and
    the recomposition that runs the display and may complete the brew. */
module Screen {
  import opened Wrappers
  import opened BrewTable
  import Amount
  import Plan
  import opened Alarms
  import Notifications
  import Display

  /** The screen's state (amount text, roast, start instant, last clock sample), the number
      of ticker callbacks waiting in the main-thread queue, the alarm facility's pending
      alarms, and the single notification slot the immediate notification replaces. */
  datatype State = State(
    amount: string,
    roast: Roast,
    startedAt: Option<int>,
    currentAt: Option<int>,
    pendingTicks: nat,
    alarms: AlarmMap,
    posted: Option<Message>)

  /** What can happen to the screen. A disabled widget delivers nothing, so an edit or a
      click while its widget is disabled leaves the state as it is. */
  datatype Event =
    | AmountEdited(text: string)
    | RoastPicked(choice: Roast)
    | StartClicked(now: int, refused: set<int>)
    | CancelClicked
    | TickFired(now: int)
    | Composed

  /** The uncaught exception of `toDouble()`, which ends the app. */
  datatype Crash = NumberFormatException

  /** The state a fresh screen starts in. */
  function Initial(alarms: AlarmMap): State
  {
    State("10", Dark, None, None, 0, alarms, None)
  }

  predicate Running(s: State) {
    s.startedAt.Some?
  }

  /** Records the click instant and queues one more ticker callback; nothing else changes. */
  function StartTimer(s: State, now: int): (r: State)
    ensures Running(r) && r.startedAt == Some(now)
    ensures r.pendingTicks == s.pendingTicks + 1
    ensures r.(startedAt := s.startedAt, pendingTicks := s.pendingTicks) == s
  {
    s.(startedAt := Some(now), pendingTicks := s.pendingTicks + 1)
  }

  /** Ends the brew by clearing the start instant; nothing else changes, and in particular
      a queued ticker callback stays queued. */
  function CancelTimer(s: State): (r: State)
    ensures !Running(r)
    ensures r.(startedAt := s.startedAt) == s
  {
    s.(startedAt := None)
  }

  /** Start's scheduling step: it parses the amount, which throws when the text has no
      value, posts step 0's message at once and requests the alarm of every later step,
      counting from the recorded start or, failing that, from `now`. Only the alarms and the
      notification slot change. */
  function StartAlarms(s: State, now: int, refused: set<int>): (r: Result<State, Crash>)
    ensures r.Failure? <==> Amount.ParseBeans(s.amount).Failure?
    ensures r.Success? ==> r.value.(alarms := s.alarms, posted := s.posted) == s
    ensures r.Success? ==>
      var steps := BrewSteps(s.roast);
      forall k :: 1 <= k < |steps| && k !in refused ==>
        k in r.value.alarms && r.value.alarms[k].at == s.startedAt.GetOr(now) + Plan.WaitSum(steps[..k])
  {
    match Amount.ParseBeans(s.amount)
    case Failure(_) => Failure(NumberFormatException)
    case Success(beans) =>
      var steps := BrewSteps(s.roast);
      var notifyAt := s.startedAt.GetOr(now);
      Notifications.ScheduleContents(s.alarms, steps, beans, notifyAt, refused);
      Success(s.(alarms := Notifications.Schedule(s.alarms, steps, beans, notifyAt, refused),
                 posted := if steps == [] then s.posted else Some(Notifications.MessageFor(steps, beans, 0))))
  }

  /** Cancel's alarm step: it withdraws the alarms of steps `1..n-1` of the current roast and
      changes nothing else. */
  function CancelStepAlarms(s: State): (r: State)
    ensures r.(alarms := s.alarms) == s
    ensures forall k :: k in r.alarms <==> k in s.alarms && !(1 <= k < |BrewSteps(s.roast)|)
  {
    s.(alarms := Notifications.CancelNotifications(s.alarms, BrewSteps(s.roast)))
  }

  /** One ticker callback: while running it re-posts itself and samples the clock;
      otherwise it ends and is not re-posted. */
  function Tick(s: State, now: int): (r: State)
    ensures r.(currentAt := s.currentAt, pendingTicks := s.pendingTicks) == s
    ensures s.pendingTicks > 0 ==> (Running(s) <==> r.pendingTicks == s.pendingTicks)
    ensures s.pendingTicks > 0 && !Running(s) ==> r.pendingTicks == s.pendingTicks - 1
    ensures s.pendingTicks > 0 && Running(s) ==> r.currentAt == Some(now)
    ensures !(s.pendingTicks > 0 && Running(s)) ==> r.currentAt == s.currentAt
  {
    if s.pendingTicks == 0 then s
    else if Running(s) then s.(currentAt := Some(now))
    else s.(pendingTicks := s.pendingTicks - 1)
  }

  /** A recomposition: the display parses the amount and, when the last remaining time is
      0, calls the completion callback, which only clears the start instant. */
  function Compose(s: State): (r: Result<State, Crash>)
    ensures r.Success? <==> Amount.ParseBeans(s.amount).Success?
    ensures r.Success? ==> r.value.(startedAt := s.startedAt) == s
    ensures r.Success? && !Running(s) ==> r.value == s
    ensures r.Success? && Running(s) && |BrewSteps(s.roast)| >= 2 ==>
      (Running(r.value) <==> s.currentAt.None? || s.currentAt.value < Plan.WaitUntil(BrewSteps(s.roast), s.startedAt.value, |BrewSteps(s.roast)| - 1))
  {
    match Amount.ParseBeans(s.amount)
    case Failure(_) => Failure(NumberFormatException)
    case Success(_) =>
      Success(if Display.Completes(BrewSteps(s.roast), s.startedAt, s.currentAt) then CancelTimer(s) else s)
  }

  /** One event. The screen throws only when the amount does not parse, and then only on
      an honoured Start or on a recomposition; a widget that is disabled delivers nothing. */
  function Step(s: State, e: Event): (r: Result<State, Crash>)
    ensures r.Failure? <==> (e.Composed? || (e.StartClicked? && !Running(s))) && Amount.ParseBeans(s.amount).Failure?
    ensures Running(s) && (e.AmountEdited? || e.RoastPicked? || e.StartClicked?) ==> r == Success(s)
    ensures !Running(s) && e.CancelClicked? ==> r == Success(s)
  {
    match e
    case AmountEdited(text) => Success(if Running(s) then s else s.(amount := Amount.Update(s.amount, text)))
    case RoastPicked(choice) => Success(if Running(s) then s else s.(roast := choice))
    case StartClicked(now, refused) =>
      if Running(s) then Success(s) else StartAlarms(StartTimer(s, now), now, refused)
    case CancelClicked => Success(if Running(s) then CancelStepAlarms(CancelTimer(s)) else s)
    case TickFired(now) => Success(Tick(s, now))
    case Composed => Compose(s)
  }

  /** What every reachable state satisfies: the amount text is in the input pattern, and a
      running brew has a ticker callback queued. */
  ghost predicate Good(s: State) {
    && Amount.AmountPattern(s.amount)
    && (Running(s) ==> s.pendingTicks >= 1)
  }

  lemma InitialIsGood(alarms: AlarmMap)
    ensures Good(Initial(alarms))
    ensures !Running(Initial(alarms))
  {
    Amount.ParseDecimalText(10);
    assert Amount.DecimalText(10) == "10";
    Amount.MatchesIsAmountPattern("10");
  }

  lemma StepPreservesGood(s: State, e: Event)
    requires Good(s)
    requires Step(s, e).Success?
    ensures Good(Step(s, e).value)
  {
  }

  /** Start is honoured only when idle: it records the click instant and requests the alarm
      of every later step at the start plus the waits before it, with the "done" template on
      the last; while running it is ignored. */
  lemma StartOnlyWhenIdle(s: State, now: int, refused: set<int>)
    ensures Running(s) ==> Step(s, StartClicked(now, refused)) == Success(s)
    ensures !Running(s) ==> (Step(s, StartClicked(now, refused)).Success? <==> Amount.ParseBeans(s.amount).Success?)
    ensures !Running(s) && Step(s, StartClicked(now, refused)).Success? ==>
      var r := Step(s, StartClicked(now, refused)).value;
      var steps := BrewSteps(s.roast);
      && r.startedAt == Some(now)
      && r.amount == s.amount && r.roast == s.roast
      && (forall k :: 1 <= k < |steps| && k !in refused ==>
            k in r.alarms && r.alarms[k].at == now + Plan.WaitSum(steps[..k])
            && (r.alarms[k].message.PourThenDone? <==> k == |steps| - 1))
      && (0 in r.alarms <==> 0 in s.alarms)
      && (0 in r.alarms ==> r.alarms[0] == s.alarms[0])
      && r.posted == Some(Notifications.MessageFor(steps, Amount.ParseBeans(s.amount).value, 0))
  {
    if !Running(s) && Amount.ParseBeans(s.amount).Success? {
      var beans := Amount.ParseBeans(s.amount).value;
      var steps := BrewSteps(s.roast);
      Notifications.ScheduleContents(s.alarms, steps, beans, now, refused);
    }
  }

  /** Cancel is honoured only while running; it ends the brew, withdraws the step alarms,
      and a second cancel changes nothing. */
  lemma CancelIsIdempotent(s: State)
    ensures Step(s, CancelClicked).Success?
    ensures !Running(Step(s, CancelClicked).value)
    ensures Step(Step(s, CancelClicked).value, CancelClicked) == Step(s, CancelClicked)
    ensures Running(s) ==> forall k :: 1 <= k < |BrewSteps(s.roast)| ==> k !in Step(s, CancelClicked).value.alarms
    ensures !Running(s) ==> Step(s, CancelClicked) == Success(s)
  {
  }

  /** The completion callback's own action can be repeated without effect. */
  lemma CancelTimerIsIdempotent(s: State)
    ensures CancelTimer(CancelTimer(s)) == CancelTimer(s)
    ensures !Running(CancelTimer(s))
  {
  }

  /** While a brew runs, no event changes the amount or the roast, so the plan in force at
      the start is the plan until the brew ends. */
  lemma InputsFrozenWhileRunning(s: State, e: Event)
    requires Running(s)
    requires Step(s, e).Success?
    ensures Step(s, e).value.amount == s.amount
    ensures Step(s, e).value.roast == s.roast
  {
  }

  /** An edit while idle takes the text when it is in the input pattern and is otherwise
      dropped without a trace. */
  lemma EditWhenIdle(s: State, text: string)
    requires !Running(s)
    ensures Step(s, AmountEdited(text)).Success?
    ensures Amount.AmountPattern(text) ==> Step(s, AmountEdited(text)).value == s.(amount := text)
    ensures !Amount.AmountPattern(text) ==> Step(s, AmountEdited(text)).value == s
  {
  }

  /** The state after ticker callbacks fire at the instants `nows`, in order. */
  function TicksFired(s: State, nows: seq<int>): State
    decreases |nows|
  {
    if nows == [] then s else TicksFired(Tick(s, nows[0]), nows[1..])
  }

  /** Once the brew is idle, every queued callback ends without re-posting, so after as many
      callbacks as were queued none is left, and the clock sample is never touched. */
  lemma {:induction false} IdleTickersDrain(s: State, nows: seq<int>)
    requires !Running(s)
    requires |nows| >= s.pendingTicks
    ensures TicksFired(s, nows).pendingTicks == 0
    ensures TicksFired(s, nows).currentAt == s.currentAt
    ensures TicksFired(s, nows).startedAt == s.startedAt
    decreases |nows|
  {
    if nows != [] {
      IdleTickersDrain(Tick(s, nows[0]), nows[1..]);
    }
  }

  /** While the brew runs, a queued callback keeps re-posting itself, so the queue never
      empties and the clock sample is the instant of the latest callback. */
  lemma {:induction false} RunningTickerNeverStops(s: State, nows: seq<int>)
    requires Running(s) && s.pendingTicks >= 1
    ensures TicksFired(s, nows).pendingTicks == s.pendingTicks
    ensures TicksFired(s, nows).startedAt == s.startedAt
    ensures TicksFired(s, nows).currentAt == if nows == [] then s.currentAt else Some(nows[|nows| - 1])
    decreases |nows|
  {
    if nows != [] {
      RunningTickerNeverStops(Tick(s, nows[0]), nows[1..]);
    }
  }

  /** Started at `now`, the brew completes at the first recomposition whose clock sample has
      reached the instant of the last step's alarm, and not before. */
  lemma CompletionAtLastAlarm(s: State, now: int, refused: set<int>, sample: int)
    requires !Running(s)
    requires Amount.ParseBeans(s.amount).Success?
    ensures var started := Step(s, StartClicked(now, refused)).value;
      var n := |BrewSteps(s.roast)|;
      && (n - 1 !in refused ==> n - 1 in started.alarms && started.alarms[n - 1].at == Plan.WaitUntil(BrewSteps(s.roast), now, n - 1))
      && Compose(started.(currentAt := Some(sample))).Success?
      && (Running(Compose(started.(currentAt := Some(sample))).value) <==> sample < Plan.WaitUntil(BrewSteps(s.roast), now, n - 1))
  {
    var steps := BrewSteps(s.roast);
    var beans := Amount.ParseBeans(s.amount).value;
    TableContents();
    Notifications.ScheduleContents(s.alarms, steps, beans, now, refused);
  }

  /** Starting and then cancelling hands the alarm facility back as it was, provided it held
      no alarm under a step key beforehand. */
  lemma StartThenCancelRestoresAlarms(s: State, now: int, refused: set<int>)
    requires !Running(s)
    requires Amount.ParseBeans(s.amount).Success?
    requires forall k :: 1 <= k < |BrewSteps(s.roast)| ==> k !in s.alarms
    ensures var started := Step(s, StartClicked(now, refused)).value;
      var ended := Step(started, CancelClicked).value;
      && !Running(ended)
      && ended.alarms == s.alarms
  {
    var steps := BrewSteps(s.roast);
    var beans := Amount.ParseBeans(s.amount).value;
    Notifications.CancelUndoesSchedule(s.alarms, steps, beans, now, refused);
  }

  /** A lone dot typed into a fresh screen is accepted, and the next recomposition throws. */
  lemma DotCrashesDisplay(alarms: AlarmMap)
    ensures Step(Initial(alarms), AmountEdited(".")).Success?
    ensures Step(Initial(alarms), AmountEdited(".")).value.amount == "."
    ensures Step(Step(Initial(alarms), AmountEdited(".")).value, Composed).Failure?
  {
    Amount.DotIsAcceptedButDoesNotParse("10");
  }

  /** Cancelling and starting again before the old ticker callback has run leaves two
      callbacks queued, each of which keeps re-posting itself while the new brew runs. */
  lemma QuickRestartQueuesTwoTickers(s: State, t1: int, t2: int)
    requires !Running(s) && s.pendingTicks == 0
    requires Amount.ParseBeans(s.amount).Success?
    ensures var a := Step(s, StartClicked(t1, {})).value;
      var b := Step(a, CancelClicked).value;
      var c := Step(b, StartClicked(t2, {})).value;
      Running(c) && c.pendingTicks == 2
  {
  }
}

=== FILE: wrappers.dfy ===
/** Wrappers shared by the brew timer model. */
module Wrappers {

  /** A value that may be absent: Kotlin's nullable `T?`. */
  datatype Option<+T> = None | Some(value: T) {

    /** The wrapped value, or `default` when absent (Kotlin's `?:`). */
    function GetOr(default: T): T
    {
      match this
      case Some(v) => v
      case None => default
    }
  }

  /** Either a value or the exception the Kotlin code would throw instead. */
  datatype Result<+R, +E> = Success(value: R) | Failure(error: E)
}
